=== FILE: README.md ===
# Font metadata preparation of the BDF-to-TTF converter

The script `lab-3/lab3.py` converts a set of BDF bitmap fonts into one TrueType
font with FontForge. Most of the script calls FontForge. Between those calls it
edits the font's metadata in a fixed order. This project models that part as
pure functions over an immutable metadata record, `FontInfo.Font`. The record
holds the font name, family name, full name, weight, copyright, version, OS/2
vendor tag, whether the FontForge build exposes `os2_stylemap`, and the two
16-bit style words `os2_stylemap` (OS/2 fsSelection) and `macstyle` (head
macStyle).

The steps, in the order the script runs them:

1. **Option overrides** (`ArgOverrides`). A fixed table maps six command-line
   options to six font attributes: name→fontname, family→familyname,
   display_name→fullname, weight→weight, copyright→copyright and
   font_version→version. Each option that was given replaces its attribute.
2. **Copyright append and vendor stamp** (`Metadata.AppendCopyrightAndStamp`).
   `--append-copyright` is concatenated onto the copyright, and the vendor tag
   becomes `PfEd`.
3. **OS/2 tweak** (`Os2Tweaks`). This step only runs when `--os2-table-tweaks`
   is given. It needs `os2_stylemap` to exist. It guesses a weight from the
   lower-cased weight and font name. It then looks the guess up in a
   five-entry table and ORs the entry's bits into both style words
   (`StyleWords` states what the OR does).
4. **Output name** (`OutputName`). The file name is the font name, plus `-`
   and the version when the version is non-empty, plus `.ttf`.

`Metadata.PrepareFont` runs the four steps in order. The script's
`sys.exit` paths in step 3 are a `Failure` carrying a `TweakError`.
Lower-casing is ASCII lower-casing (`Strings.Lower`).

## Model

| member | source | states |
|---|---|---|
| `ArgOverrides.TableIsBijection` | lab-3/lab3.py:7-14 | The option-to-attribute table pairs the six options one-to-one with the six attributes, and its key list names every option exactly once. |
| `FontInfo.Set` | lab-3/lab3.py:110-114 | Setting an attribute makes it read back as the new value. Every other attribute, the vendor tag and the style fields are unchanged. |
| `ArgOverrides.Override` | lab-3/lab3.py:107-114 | One turn of the loop: a given option replaces its attribute, an absent one leaves it alone, and nothing else changes. |
| `ArgOverrides.ApplyOverrides` | lab-3/lab3.py:106-114 | Over any list of distinct keys, an attribute whose option is listed takes the option's value when given and keeps its value otherwise. Unlisted attributes and all other fields keep their values. |
| `ArgOverrides.SetFontAttrsFromArgs` | lab-3/lab3.py:106-114 | Each of the six attributes equals its option's value when that option is non-None and its previous value otherwise. The vendor tag and style fields do not change. |
| `ArgOverrides.NoOptionsNoChange` | lab-3/lab3.py:106-114 | With no overriding option given, the override step returns the font unchanged. |
| `Metadata.AppendCopyrightAndStamp` | lab-3/lab3.py:138-140 | The copyright becomes the old copyright followed by the appended text when given, and is unchanged otherwise. The vendor tag is always `PfEd`. No other attribute or style field changes. |
| `Metadata.Stamped` | lab-3/lab3.py:137-140 | After overrides, append and stamp, each name-like field is the option's value or the old value. The copyright is the overridden copyright followed by the appended text. The vendor is `PfEd` and the style fields are the original ones. |
| `Strings.Lower` | lab-3/lab3.py:146-147 | Lower-casing keeps the length, maps each character through ASCII lower-casing, and leaves no upper-case letter. |
| `Strings.LowerFixesLower` | lab-3/lab3.py:146-147 | A string is unchanged by lower-casing exactly when it has no upper-case letter, and lower-casing twice is lower-casing once. |
| `Os2Tweaks.ItalicName` | lab-3/lab3.py:147-149 | The lower-cased font name ends in "italic" exactly when the name's last six characters spell "italic" in any mix of cases. |
| `Os2Tweaks.GuessWeight` | lab-3/lab3.py:146-150 | The guess is the lower-cased weight, except for an italic-named font, where it may be one of the two italic keys. |
| `Os2Tweaks.GuessWeightRules` | lab-3/lab3.py:146-150 | With an italic name, "medium" becomes "italic" and "bold" becomes "bolditalic". Every other weight, "normal" included, is only lower-cased. Without an italic name nothing changes. |
| `Os2Tweaks.GuessIsLower` | lab-3/lab3.py:146-150 | The guessed weight is always lower-case, as the table keys are. |
| `Os2Tweaks.GuessKnownIffWeightKnown` | lab-3/lab3.py:146-155 | The guess has a table entry exactly when the lower-cased weight has one, so the font name never decides whether the lookup fails. |
| `Os2Tweaks.WeightTableEntries` | lab-3/lab3.py:16-22 | The table has an entry for exactly "normal", "medium", "italic", "bold" and "bolditalic". In fsSelection, 0x40 marks "normal" and "medium", 0x20 the two bold keys, and 0x1 and 0x200 the two italic keys. No entry sets any other bit. |
| `Os2Tweaks.BoldItalicIsUnion` | lab-3/lab3.py:16-22 | In both style words, the "bolditalic" entry is the bitwise union of the "bold" and "italic" entries. |
| `Os2Tweaks.WeightStyle` | lab-3/lab3.py:16-22 | The five-entry table. Its contract fixes the macStyle flags only; `Os2Tweaks.WeightTableEntries` fixes the keys and the fsSelection bits. In every entry, macStyle has the bold flag exactly for "bold" and "bolditalic", the italic flag exactly for "italic" and "bolditalic", and no other flag. |
| `Os2Tweaks.GuessRefinesMacStyle` | lab-3/lab3.py:146-153 | For a known weight, the guessed entry keeps every macStyle flag of the weight's own entry. It has the italic flag exactly when that entry has it, or when the name is italic and the weight is "medium" or "bold". |
| `StyleWords.OrSetsExactly` | lab-3/lab3.py:164-165 | `x` OR `mask` has every bit of the mask set, agrees with `x` on all other bits, and keeps every bit of `x`. |
| `StyleWords.SetsExactlyDetermines` | lab-3/lab3.py:164-165 | A word that sets exactly the mask's bits over `x` and keeps the rest must be `x` OR `mask`. The bitwise description and the OR agree. |
| `Os2Tweaks.AddStyleBits` | lab-3/lab3.py:164-165 | Both style words gain exactly the entry's bits and keep every bit already set. No other field changes. |
| `Os2Tweaks.TweakOs2Table` | lab-3/lab3.py:141-165 | Without the request, the font is returned unchanged. With it, a build lacking `os2_stylemap` is the capability error. On a capable build the tweak succeeds exactly when the guess has a table entry, and otherwise fails with the unknown-weight error carrying the guess. On success both words gain exactly the guessed entry's bits and no other field changes. |
| `Os2Tweaks.TweakStyleWords` | lab-3/lab3.py:164-165 | After a successful tweak the capability flag is kept. Without the request the words are unchanged; with it each word is the old word OR the guessed entry's bits. |
| `Os2Tweaks.TweakFailsExactlyForUnknownWeight` | lab-3/lab3.py:146-155 | On a build with `os2_stylemap`, a requested tweak fails exactly when the lower-cased weight is not a table key. The error then names that lower-cased weight. |
| `Os2Tweaks.TweakKeepsSetBits` | lab-3/lab3.py:164-165 | A successful tweak clears no bit of `os2_stylemap` or `macstyle`. |
| `Os2Tweaks.TweakIdempotent` | lab-3/lab3.py:141-165 | Tweaking the result of a successful tweak again gives the same result. |
| `OutputName.Basename` | lab-3/lab3.py:171-173 | The base name starts with the font name. It is the font name alone for an empty version. Otherwise a `-` follows the font name and the name ends with the version. |
| `OutputName.OutputFileName` | lab-3/lab3.py:171-176 | The file name starts with the font name, ends with `.ttf`, and gives back the base name when `.ttf` is stripped. |
| `OutputName.BasenameRoundTrip` | lab-3/lab3.py:171-173 | For a font name without `-`, splitting the base name at its first `-` gives back the font name and the version. |
| `OutputName.BasenameRoundTripAtLast` | lab-3/lab3.py:171-173 | For a version without `-` that is either non-empty, or empty with a font name without `-`, splitting the base name at its last `-` gives back the font name and the version. This covers PostScript names such as `Terminus-Bold`. |
| `OutputName.OutputFileNameInjective` | lab-3/lab3.py:171-176 | Fonts whose names have no `-` get the same file name exactly when they have the same name and the same version. |
| `OutputName.OutputFileNameCollision` | lab-3/lab3.py:171-176 | Names with `-` can collide: font `a-b` with an empty version and font `a` with version `b` both produce `a-b.ttf`. |
| `Metadata.PrepareFont` | lab-3/lab3.py:137-176 | The steps in source order. Without a tweak request the run never stops, and a successful run carries the `PfEd` stamp and names a `.ttf` file. The full contract is in the four `Metadata.PrepareFont*` lemmas. |
| `Metadata.PrepareFontFailsExactly` | lab-3/lab3.py:137-155 | The steps fail exactly when tweaks are requested and either the build lacks `os2_stylemap` or the post-override weight, lower-cased, is not a table key. The missing-capability case reports that error; on a build that has it, the error is the unknown-weight one and names the lower-cased post-override weight. |
| `Metadata.PrepareFontFields` | lab-3/lab3.py:137-176 | On success, the name-like fields and the copyright follow the overrides and the append. The vendor is `PfEd`. The file name is built from the final font name and version. |
| `Metadata.PrepareFontStyle` | lab-3/lab3.py:137-165 | On success, the capability flag is unchanged and both words keep every bit already set. Without tweaks the words are untouched. With tweaks each word is the old word OR the table entry of the weight guessed from the post-override weight and font name, so `-n FooItalic -w Bold -O` adds the bolditalic pair. |
| `Metadata.PrepareFontIdempotent` | lab-3/lab3.py:137-176 | With no appended notice, running the steps on their own output with the same options returns the same font and file name. |

## Left out

- FontForge itself: `setPrefs`, `open`, `importBitmaps`, `selection.all`, `autoTrace`, `addExtrema`, `simplify` and `generate` (lab-3/lab3.py:117-136, 166-170, 176). This is foreign library behaviour. The model assumes the glyph processing between the tweak and the output name leaves the metadata fields alone. The open and import failures at lines 119-134 end the script before any metadata step, so they are not modelled.
- Argument parsing (lab-3/lab3.py:25-103, 116). Its result is the `ArgOverrides.Args` record of optional strings and the tweak flag. The options that only feed FontForge (`bdf_file`, `--prefer-autotrace`, `--tracer-args`, `--no-background`) are not in the record. Neither is `--visual-studio-fixes`, which the script parses but never reads.
- Messages: printed diagnostics and the text of the exit messages. An exit is a `TweakError` value, and the unknown-weight error carries the guessed weight.
- The Tk window (lab-3/lab3.py:179-185): GUI only.
- `Strings.Lower`: models Python's Unicode `str.lower()` as ASCII lower-casing. Non-ASCII letters are kept as they are.
- `Os2Tweaks.AddStyleBits`: the style words are 16-bit (`bv16`), as the OS/2 and head table fields are. Python's unbounded `|=` agrees with this for any value in the signed or unsigned 16-bit range, including a negative value such as `-1`. It does not model a wider value.
- `Metadata.PrepareFontIdempotent`: stated only for runs without `--append-copyright`, because a second run appends the notice again.
- `PythonSocketServer/main.py`, the TCP broadcast server. It has socket I/O, one thread per client and a shared unlocked client list, and no pure logic to state.

=== FILE: arg_overrides.dfy ===
/** The command-line values that feed the metadata, the fixed table from
    option name to font attribute, and the override step that applies it. */
module ArgOverrides {
  import opened Wrappers
  import opened FontInfo

  /** The parsed command line, as far as the metadata steps read it. An option
      that was not given is `None`. */
  datatype Args = Args(
    name: Option<string>,
    family: Option<string>,
    displayName: Option<string>,
    weight: Option<string>,
    copyright: Option<string>,
    appendCopyright: Option<string>,
    fontVersion: Option<string>,
    os2TableTweaks: bool)

  /** The keys of the option-to-attribute table. */
  datatype ArgName = NameArg | FamilyArg | DisplayNameArg | WeightArg | CopyrightArg | FontVersionArg

  /** The table's keys in the order the override loop visits them. */
  const TableKeys: seq<ArgName> :=
    [NameArg, FamilyArg, DisplayNameArg, WeightArg, CopyrightArg, FontVersionArg]

  /** The attribute each option overrides. */
  function TargetAttr(n: ArgName): Attr {
    match n
    case NameArg => FontName
    case FamilyArg => FamilyName
    case DisplayNameArg => FullName
    case WeightArg => Weight
    case CopyrightArg => Copyright
    case FontVersionArg => Version
  }

  /** The option that overrides each attribute. */
  function ArgFor(a: Attr): ArgName {
    match a
    case FontName => NameArg
    case FamilyName => FamilyArg
    case FullName => DisplayNameArg
    case Weight => WeightArg
    case Copyright => CopyrightArg
    case Version => FontVersionArg
  }

  /** `getattr(args, argName)`. */
  function ArgValue(args: Args, n: ArgName): Option<string> {
    match n
    case NameArg => args.name
    case FamilyArg => args.family
    case DisplayNameArg => args.displayName
    case WeightArg => args.weight
    case CopyrightArg => args.copyright
    case FontVersionArg => args.fontVersion
  }

  /** No key occurs twice. */
  predicate Distinct(keys: seq<ArgName>) {
    forall i, j :: 0 <= i < j < |keys| ==> keys[i] != keys[j]
  }

  /** The table is a one-to-one correspondence between the six options and
      the six attributes, and its key list names every option once. */
  lemma TableIsBijection()
    ensures forall n :: ArgFor(TargetAttr(n)) == n
    ensures forall a :: TargetAttr(ArgFor(a)) == a
    ensures forall n :: n in TableKeys
    ensures Distinct(TableKeys)
  {
    forall n ensures n in TableKeys {
      match n
      case NameArg => assert TableKeys[0] == n;
      case FamilyArg => assert TableKeys[1] == n;
      case DisplayNameArg => assert TableKeys[2] == n;
      case WeightArg => assert TableKeys[3] == n;
      case CopyrightArg => assert TableKeys[4] == n;
      case FontVersionArg => assert TableKeys[5] == n;
    }
  }

  /** One turn of the override loop: the option's value, when given,
      replaces its attribute. */
  function Override(f: Font, args: Args, n: ArgName): (r: Font)
    ensures Get(r, TargetAttr(n)) == ArgValue(args, n).GetOr(Get(f, TargetAttr(n)))
    ensures forall a :: a != TargetAttr(n) ==> Get(r, a) == Get(f, a)
    ensures SameVendorAndStyle(r, f)
  {
    match ArgValue(args, n)
    case Some(v) => Set(f, TargetAttr(n), v)
    case None => f
  }

  /** The override loop over `keys`: an attribute whose option is among the
      keys and was given takes that value; every other attribute, and every
      other field, keeps its value. */
  function ApplyOverrides(f: Font, args: Args, keys: seq<ArgName>): (r: Font)
    requires Distinct(keys)
    ensures forall a :: Get(r, a) ==
              if ArgFor(a) in keys then ArgValue(args, ArgFor(a)).GetOr(Get(f, a)) else Get(f, a)
    ensures SameVendorAndStyle(r, f)
    decreases |keys|
  {
    if keys == [] then f
    else
      TableIsBijection();
      assert keys[0] !in keys[1..] by {
        forall j | 0 <= j < |keys[1..]| ensures keys[1..][j] != keys[0] {
          assert keys[1..][j] == keys[1 + j];
        }
      }
      ApplyOverrides(Override(f, args, keys[0]), args, keys[1..])
  }

  /** `setFontAttrsFromArgs`: each of the six attributes equals its option's
      value when that option was given and keeps its value otherwise; the
      vendor tag and the style fields do not change. */
  function SetFontAttrsFromArgs(f: Font, args: Args): (r: Font)
    ensures forall n :: Get(r, TargetAttr(n)) == ArgValue(args, n).GetOr(Get(f, TargetAttr(n)))
    ensures r.fontname == args.name.GetOr(f.fontname)
    ensures r.familyname == args.family.GetOr(f.familyname)
    ensures r.fullname == args.displayName.GetOr(f.fullname)
    ensures r.weight == args.weight.GetOr(f.weight)
    ensures r.copyright == args.copyright.GetOr(f.copyright)
    ensures r.version == args.fontVersion.GetOr(f.version)
    ensures SameVendorAndStyle(r, f)
  {
    TableIsBijection();
    var r := ApplyOverrides(f, args, TableKeys);
    assert Get(r, FontName) == r.fontname && Get(r, FamilyName) == r.familyname;
    assert Get(r, FullName) == r.fullname && Get(r, Weight) == r.weight;
    assert Get(r, Copyright) == r.copyright && Get(r, Version) == r.version;
    r
  }

  /** With no overriding option given, the override step changes nothing. */
  lemma NoOptionsNoChange(f: Font, args: Args)
    requires forall n :: ArgValue(args, n).None?
    ensures SetFontAttrsFromArgs(f, args) == f
  {
  }
}

=== FILE: font_info.dfy ===
/** The font-metadata record the script reads and writes on the FontForge font
    object, and the six name-like attributes the command line may override. */
module FontInfo {

  /** The metadata fields of a font. `hasOs2Stylemap` says whether the
      FontForge build exposes `os2_stylemap` at all; the two style words are
      the 16-bit OS/2 fsSelection and head macStyle flag words. */
  datatype Font = Font(
    fontname: string,
    familyname: string,
    fullname: string,
    weight: string,
    copyright: string,
    version: string,
    os2Vendor: string,
    hasOs2Stylemap: bool,
    os2Stylemap: bv16,
    macstyle: bv16)

  /** The attributes an option can override. */
  datatype Attr = FontName | FamilyName | FullName | Weight | Copyright | Version

  /** `getattr(font, attr)` for the six overridable attributes. */
  function Get(f: Font, a: Attr): string {
    match a
    case FontName => f.fontname
    case FamilyName => f.familyname
    case FullName => f.fullname
    case Weight => f.weight
    case Copyright => f.copyright
    case Version => f.version
  }

  /** The vendor tag and the style fields agree. */
  predicate SameVendorAndStyle(f: Font, g: Font) {
    && f.os2Vendor == g.os2Vendor
    && SameStyle(f, g)
  }

  /** The style capability and the two style words agree. */
  predicate SameStyle(f: Font, g: Font) {
    && f.hasOs2Stylemap == g.hasOs2Stylemap
    && f.os2Stylemap == g.os2Stylemap
    && f.macstyle == g.macstyle
  }

  /** The six overridable attributes agree. */
  predicate SameNames(f: Font, g: Font) {
    forall a :: Get(f, a) == Get(g, a)
  }

  /** `setattr(font, attr, v)`: `attr` reads back as `v` and nothing else changes. */
  function Set(f: Font, a: Attr, v: string): (r: Font)
    ensures Get(r, a) == v
    ensures forall b :: b != a ==> Get(r, b) == Get(f, b)
    ensures SameVendorAndStyle(r, f)
  {
    match a
    case FontName => f.(fontname := v)
    case FamilyName => f.(familyname := v)
    case FullName => f.(fullname := v)
    case Weight => f.(weight := v)
    case Copyright => f.(copyright := v)
    case Version => f.(version := v)
  }
}

=== FILE: metadata.dfy ===
/** The metadata steps of the conversion script in the order it runs them:
    option overrides, copyright append and vendor stamp, the optional OS/2
    tweak, and the output file name. */
module Metadata {
  import opened Wrappers
  import opened Strings
  import opened FontInfo
  import opened ArgOverrides
  import opened StyleWords
  import opened Os2Tweaks
  import opened OutputName

  /** The OS/2 vendor tag every generated font carries. */
  const Vendor: string := "PfEd"

  /** `copyright += append` when the option was given, then the vendor stamp. */
  function AppendCopyrightAndStamp(f: Font, append: Option<string>): (r: Font)
    ensures append.Some? ==> r.copyright == f.copyright + append.value
    ensures append.None? ==> r.copyright == f.copyright
    ensures StartsWith(r.copyright, f.copyright)
    ensures r.os2Vendor == Vendor
    ensures forall a :: a != Copyright ==> Get(r, a) == Get(f, a)
    ensures SameStyle(r, f)
  {
    var c := if append.Some? then f.copyright + append.value else f.copyright;
    f.(copyright := c, os2Vendor := Vendor)
  }

  /** The font after the overrides, the copyright append and the vendor
      stamp, ready for the OS/2 tweak. */
  function Stamped(f: Font, args: Args): (r: Font)
    ensures r.fontname == args.name.GetOr(f.fontname)
    ensures r.familyname == args.family.GetOr(f.familyname)
    ensures r.fullname == args.displayName.GetOr(f.fullname)
    ensures r.weight == args.weight.GetOr(f.weight)
    ensures r.version == args.fontVersion.GetOr(f.version)
    ensures args.appendCopyright.None? ==> r.copyright == args.copyright.GetOr(f.copyright)
    ensures args.appendCopyright.Some? ==>
              r.copyright == args.copyright.GetOr(f.copyright) + args.appendCopyright.value
    ensures r.os2Vendor == Vendor
    ensures SameStyle(r, f)
  {
    var g := SetFontAttrsFromArgs(f, args);
    var r := AppendCopyrightAndStamp(g, args.appendCopyright);
    assert r.fontname == Get(r, FontName) == Get(g, FontName);
    assert r.familyname == Get(r, FamilyName) == Get(g, FamilyName);
    assert r.fullname == Get(r, FullName) == Get(g, FullName);
    assert r.weight == Get(r, Weight) == Get(g, Weight);
    assert r.version == Get(r, Version) == Get(g, Version);
    r
  }

  /** What the script hands to the font generator. */
  datatype Prepared = Prepared(font: Font, fileName: string)

  /** The metadata steps from the opened font to the output file name. Only
      the OS/2 tweak can stop the script, and a run that gets through always
      carries the vendor stamp and names a `.ttf` file; the lemmas below
      state the rest. */
  function PrepareFont(f: Font, args: Args): (r: Result<Prepared, TweakError>)
    ensures !args.os2TableTweaks ==> r.Success?
    ensures r.Success? ==> r.value.font.os2Vendor == Vendor && EndsWith(r.value.fileName, ".ttf")
  {
    match TweakOs2Table(Stamped(f, args), args.os2TableTweaks)
    case Failure(e) => Failure(e)
    case Success(k) => Success(Prepared(k, OutputFileName(k.fontname, k.version)))
  }

  /** The script stops exactly when tweaks were requested and either the
      build lacks `os2_stylemap` or the weight left after the overrides,
      lower-cased, has no table entry; each exit reports its own error, the
      second one naming that weight. */
  lemma PrepareFontFailsExactly(f: Font, args: Args)
    ensures PrepareFont(f, args).Failure? <==>
              && args.os2TableTweaks
              && (!f.hasOs2Stylemap || WeightStyle(Lower(args.weight.GetOr(f.weight))).None?)
    ensures PrepareFont(f, args).Failure? && !f.hasOs2Stylemap ==>
              PrepareFont(f, args).error == StyleMapUnsupported
    ensures PrepareFont(f, args).Failure? && f.hasOs2Stylemap ==>
              PrepareFont(f, args).error == NoTweaksForWeight(Lower(args.weight.GetOr(f.weight)))
  {
    var h := Stamped(f, args);
    if args.os2TableTweaks && h.hasOs2Stylemap {
      TweakFailsExactlyForUnknownWeight(h);
    }
  }

  /** On success, each overridable attribute holds its option's value when
      given and its old value otherwise, except that the copyright also gets
      the appended notice; the vendor tag is "PfEd"; and the file name is
      built from the final name and version. */
  lemma PrepareFontFields(f: Font, args: Args)
    ensures PrepareFont(f, args).Success? ==>
            var p := PrepareFont(f, args).value;
            && p.font.fontname == args.name.GetOr(f.fontname)
            && p.font.familyname == args.family.GetOr(f.familyname)
            && p.font.fullname == args.displayName.GetOr(f.fullname)
            && p.font.weight == args.weight.GetOr(f.weight)
            && p.font.version == args.fontVersion.GetOr(f.version)
            && (args.appendCopyright.None? ==> p.font.copyright == args.copyright.GetOr(f.copyright))
            && (args.appendCopyright.Some? ==>
                  p.font.copyright == args.copyright.GetOr(f.copyright) + args.appendCopyright.value)
            && p.font.os2Vendor == Vendor
            && p.fileName == OutputFileName(p.font.fontname, p.font.version)
  {
    if PrepareFont(f, args).Success? {
      var h := Stamped(f, args);
      var k := TweakOs2Table(h, args.os2TableTweaks).value;
      assert k.(os2Stylemap := h.os2Stylemap, macstyle := h.macstyle) == h;
    }
  }

  /** The style words after a successful run are the tweak's output on the
      stamped font, whose weight and font name are the overridden ones. */
  lemma PrepareFontIsTweakOfStamped(f: Font, args: Args)
    ensures PrepareFont(f, args).Success? <==> TweakOs2Table(Stamped(f, args), args.os2TableTweaks).Success?
    ensures PrepareFont(f, args).Success? ==>
              PrepareFont(f, args).value.font == TweakOs2Table(Stamped(f, args), args.os2TableTweaks).value
  {
  }

  /** The tweak half of `PrepareFontStyle`, kept as its own lemma only so
      that each proof stays small. With a tweak, each style word gains
      exactly the table entry of the weight guessed from the weight and font
      name as they stand after the overrides. */
  lemma PrepareFontStyleBits(f: Font, args: Args)
    ensures PrepareFont(f, args).Success? && args.os2TableTweaks ==>
            var p := PrepareFont(f, args).value;
            var bits := WeightStyle(GuessWeight(args.weight.GetOr(f.weight), args.name.GetOr(f.fontname)));
            && bits.Some?
            && p.font.os2Stylemap == f.os2Stylemap | bits.value.styleMap
            && p.font.macstyle == f.macstyle | bits.value.macStyle
  {
    if PrepareFont(f, args).Success? && args.os2TableTweaks {
      PrepareFontIsTweakOfStamped(f, args);
      var h := Stamped(f, args);
      assert SameStyle(h, f);
      TweakStyleWords(h, args.os2TableTweaks);
    }
  }

  /** On success the style capability is unchanged and both style words
      keep every bit already set. Without a tweak they are untouched; with
      one, each gains exactly the table entry of the weight guessed from the
      weight and font name as they stand after the overrides. */
  lemma PrepareFontStyle(f: Font, args: Args)
    ensures PrepareFont(f, args).Success? ==>
            var p := PrepareFont(f, args).value;
            && p.font.hasOs2Stylemap == f.hasOs2Stylemap
            && (!args.os2TableTweaks ==>
                  p.font.os2Stylemap == f.os2Stylemap && p.font.macstyle == f.macstyle)
            && p.font.os2Stylemap & f.os2Stylemap == f.os2Stylemap
            && p.font.macstyle & f.macstyle == f.macstyle
    ensures PrepareFont(f, args).Success? && args.os2TableTweaks ==>
            var p := PrepareFont(f, args).value;
            var bits := WeightStyle(GuessWeight(args.weight.GetOr(f.weight), args.name.GetOr(f.fontname)));
            && bits.Some?
            && p.font.os2Stylemap == f.os2Stylemap | bits.value.styleMap
            && p.font.macstyle == f.macstyle | bits.value.macStyle
  {
    PrepareFontStyleBits(f, args);
    if PrepareFont(f, args).Success? {
      PrepareFontIsTweakOfStamped(f, args);
      var h := Stamped(f, args);
      assert SameStyle(h, f);
      var k := TweakOs2Table(h, args.os2TableTweaks).value;
      assert k.(os2Stylemap := h.os2Stylemap, macstyle := h.macstyle) == h;
      TweakKeepsSetBits(h, args.os2TableTweaks);
    }
  }

  /** Running the steps again on their own output, with the same options and
      no appended notice, changes nothing: every override writes the value it
      wrote before, the stamp is the same, and the tweak is idempotent. */
  lemma PrepareFontIdempotent(f: Font, args: Args)
    ensures PrepareFont(f, args).Success? && args.appendCopyright.None? ==>
              PrepareFont(PrepareFont(f, args).value.font, args) == PrepareFont(f, args)
  {
    if PrepareFont(f, args).Success? && args.appendCopyright.None? {
      var h := Stamped(f, args);
      var k := TweakOs2Table(h, args.os2TableTweaks).value;
      assert k.(os2Stylemap := h.os2Stylemap, macstyle := h.macstyle) == h;
      var h2 := Stamped(k, args);
      assert h2.(os2Stylemap := h.os2Stylemap, macstyle := h.macstyle) == h;
      assert h2 == k;
      TweakIdempotent(h, args.os2TableTweaks);
    }
  }
}

=== FILE: os2_tweaks.dfy ===
/** The OS/2 table tweak: guess a style weight from the weight and the font
    name, look up the style bits for that weight, and set them in the OS/2
    fsSelection word (`os2_stylemap`) and the head macStyle word (`macstyle`). */
module Os2Tweaks {
  import opened Wrappers
  import opened Strings
  import opened FontInfo
  import opened StyleWords

  /** The bits one weight adds to each style word. */
  datatype StyleBits = StyleBits(styleMap: bv16, macStyle: bv16)

  /** Why the tweak ends the script. */
  datatype TweakError =
    | StyleMapUnsupported          // the FontForge build has no `os2_stylemap`
    | NoTweaksForWeight(guessed: string)

  /** The macStyle bold flag. */
  const MacBold: bv16 := 0x1

  /** The macStyle italic flag. */
  const MacItalic: bv16 := 0x2

  /** The five-entry weight table; any other key is missing. An entry's
      macStyle carries the bold flag exactly for the two bold keys, the italic
      flag exactly for the two italic keys, and no other flag. */
  function WeightStyle(w: string): (r: Option<StyleBits>)
    ensures r.Some? ==> (r.value.macStyle & MacBold != 0 <==> w == "bold" || w == "bolditalic")
    ensures r.Some? ==> (r.value.macStyle & MacItalic != 0 <==> w == "italic" || w == "bolditalic")
    ensures r.Some? ==> r.value.macStyle & !(MacBold | MacItalic) == 0
  {
    if w == "normal" then Some(StyleBits(0x40, 0))
    else if w == "medium" then Some(StyleBits(0x40, 0))
    else if w == "italic" then Some(StyleBits(0x201, 0x2))
    else if w == "bold" then Some(StyleBits(0x20, 0x1))
    else if w == "bolditalic" then Some(StyleBits(0x221, 0x3))
    else None
  }

  /** Whether the lower-cased font name ends in "italic": exactly when the
      name's last six characters spell "italic" in any mix of cases. */
  predicate ItalicName(fontname: string): (b: bool)
    ensures b <==> |fontname| >= 6 && Lower(fontname[|fontname| - 6..]) == "italic"
  {
    var n := |fontname|;
    if n >= 6 then
      assert Lower(fontname)[n - 6..] == Lower(fontname[n - 6..]);
      EndsWith(Lower(fontname), "italic")
    else
      EndsWith(Lower(fontname), "italic")
  }

  /** The guessed weight: the lower-cased weight, except that "medium" becomes
      "italic" and "bold" becomes "bolditalic" when the font name ends in
      "italic". It differs from the lower-cased weight only for an italic
      name, and then it is one of the two italic keys. */
  function GuessWeight(weight: string, fontname: string): (r: string)
    ensures r == Lower(weight) || (ItalicName(fontname) && (r == "italic" || r == "bolditalic"))
  {
    var w := Lower(weight);
    if w == "medium" && ItalicName(fontname) then "italic"
    else if w == "bold" && ItalicName(fontname) then "bolditalic"
    else w
  }

  /** The guess is lower-case, like the weight keys. */
  lemma GuessIsLower(weight: string, fontname: string)
    ensures IsLower(GuessWeight(weight, fontname))
  {
    var r := GuessWeight(weight, fontname);
    if r != Lower(weight) {
      assert r == "italic" || r == "bolditalic";
    }
  }

  /** The guess has a table entry exactly when the lower-cased weight has
      one: the font name can change which entry is used but never whether
      there is one. */
  lemma GuessKnownIffWeightKnown(weight: string, fontname: string)
    ensures WeightStyle(GuessWeight(weight, fontname)).Some? <==> WeightStyle(Lower(weight)).Some?
  {
  }

  /** The guessing rules in the order they are tried: an italic name turns
      "medium" into "italic" and "bold" into "bolditalic"; every other
      weight, "normal" included, is only lower-cased, and without an italic
      name nothing is changed. */
  lemma GuessWeightRules(weight: string, fontname: string)
    ensures ItalicName(fontname) && Lower(weight) == "medium" ==> GuessWeight(weight, fontname) == "italic"
    ensures ItalicName(fontname) && Lower(weight) == "bold" ==> GuessWeight(weight, fontname) == "bolditalic"
    ensures Lower(weight) != "medium" && Lower(weight) != "bold" ==> GuessWeight(weight, fontname) == Lower(weight)
    ensures !ItalicName(fontname) ==> GuessWeight(weight, fontname) == Lower(weight)
  {
  }

  /** The table has an entry for exactly its five keys. In fsSelection the
      regular bit 0x40 marks "normal" and "medium", the bold bit 0x20 the two
      bold keys, and the italic bit 0x1 and the oblique bit 0x200 the two
      italic keys; no entry sets any other bit. */
  lemma WeightTableEntries(w: string)
    ensures WeightStyle(w).Some? <==> w in {"normal", "medium", "italic", "bold", "bolditalic"}
    ensures WeightStyle(w).Some? ==>
              var m := WeightStyle(w).value.styleMap;
              && (m & 0x40 != 0 <==> w == "normal" || w == "medium")
              && (m & 0x20 != 0 <==> w == "bold" || w == "bolditalic")
              && (m & 0x1 != 0 <==> w == "italic" || w == "bolditalic")
              && (m & 0x200 != 0 <==> w == "italic" || w == "bolditalic")
              && m & !0x261 == 0
  {
  }

  /** The "bolditalic" entry is the union of the "bold" and "italic" entries. */
  lemma BoldItalicIsUnion()
    ensures WeightStyle("bolditalic").value.styleMap
         == WeightStyle("bold").value.styleMap | WeightStyle("italic").value.styleMap
    ensures WeightStyle("bolditalic").value.macStyle
         == WeightStyle("bold").value.macStyle | WeightStyle("italic").value.macStyle
  {
    assert WeightStyle("bold") == Some(StyleBits(0x20, 0x1));
    assert WeightStyle("italic") == Some(StyleBits(0x201, 0x2));
    assert WeightStyle("bolditalic") == Some(StyleBits(0x221, 0x3));
  }

  /** The guess never drops a macStyle flag the lower-cased weight's own entry
      has, and it carries the italic flag exactly when that entry does or the
      name is italic and the weight is "medium" or "bold". */
  lemma GuessRefinesMacStyle(weight: string, fontname: string)
    requires WeightStyle(Lower(weight)).Some?
    ensures WeightStyle(GuessWeight(weight, fontname)).Some?
    ensures var own := WeightStyle(Lower(weight)).value.macStyle;
            var guessed := WeightStyle(GuessWeight(weight, fontname)).value.macStyle;
            && guessed & own == own
            && (guessed & MacItalic != 0 <==>
                  own & MacItalic != 0
                  || (ItalicName(fontname) && (Lower(weight) == "medium" || Lower(weight) == "bold")))
  {
    GuessKnownIffWeightKnown(weight, fontname);
  }

  /** `os2_stylemap |= styleMap` and `macstyle |= macStyle`: both words gain
      exactly the entry's bits, and no other field changes. */
  function AddStyleBits(f: Font, bits: StyleBits): (r: Font)
    ensures SetsExactly(f.os2Stylemap, r.os2Stylemap, bits.styleMap)
    ensures SetsExactly(f.macstyle, r.macstyle, bits.macStyle)
    ensures r.os2Stylemap & f.os2Stylemap == f.os2Stylemap
    ensures r.macstyle & f.macstyle == f.macstyle
    ensures r.(os2Stylemap := f.os2Stylemap, macstyle := f.macstyle) == f
  {
    OrSetsExactly(f.os2Stylemap, bits.styleMap);
    OrSetsExactly(f.macstyle, bits.macStyle);
    f.(os2Stylemap := f.os2Stylemap | bits.styleMap, macstyle := f.macstyle | bits.macStyle)
  }

  /** The tweak step. When not requested it changes nothing. When requested
      it fails if the build lacks `os2_stylemap` or the guessed weight has no
      table entry, and otherwise sets the entry's bits in both style words,
      keeping every bit already set and every other field. */
  function TweakOs2Table(f: Font, requested: bool): (r: Result<Font, TweakError>)
    ensures !requested ==> r == Success(f)
    ensures requested && !f.hasOs2Stylemap ==> r == Failure(StyleMapUnsupported)
    ensures requested && f.hasOs2Stylemap ==>
              (r.Success? <==> WeightStyle(GuessWeight(f.weight, f.fontname)).Some?)
    ensures requested && f.hasOs2Stylemap && r.Failure? ==>
              r.error == NoTweaksForWeight(GuessWeight(f.weight, f.fontname))
    ensures r.Success? ==> r.value.(os2Stylemap := f.os2Stylemap, macstyle := f.macstyle) == f
    ensures r.Success? && requested ==>
              var bits := WeightStyle(GuessWeight(f.weight, f.fontname));
              && bits.Some?
              && SetsExactly(f.os2Stylemap, r.value.os2Stylemap, bits.value.styleMap)
              && SetsExactly(f.macstyle, r.value.macstyle, bits.value.macStyle)
  {
    if !requested then Success(f)
    else if !f.hasOs2Stylemap then Failure(StyleMapUnsupported)
    else
      var guess := GuessWeight(f.weight, f.fontname);
      match WeightStyle(guess)
      case None => Failure(NoTweaksForWeight(guess))
      case Some(bits) =>
        Success(AddStyleBits(f, bits))
  }

  /** A requested tweak on a build with `os2_stylemap` fails exactly when the
      lower-cased weight is not a table key; the font name never decides it. */
  lemma TweakFailsExactlyForUnknownWeight(f: Font)
    requires f.hasOs2Stylemap
    ensures TweakOs2Table(f, true).Failure? <==> WeightStyle(Lower(f.weight)).None?
    ensures TweakOs2Table(f, true).Failure? ==>
              TweakOs2Table(f, true) == Failure(NoTweaksForWeight(Lower(f.weight)))
  {
    var guess := GuessWeight(f.weight, f.fontname);
    GuessKnownIffWeightKnown(f.weight, f.fontname);
    if WeightStyle(Lower(f.weight)).None? {
      assert guess == Lower(f.weight);
    }
  }

  /** A successful tweak clears no bit of either style word. */
  lemma TweakKeepsSetBits(f: Font, requested: bool)
    requires TweakOs2Table(f, requested).Success?
    ensures TweakOs2Table(f, requested).value.os2Stylemap & f.os2Stylemap == f.os2Stylemap
    ensures TweakOs2Table(f, requested).value.macstyle & f.macstyle == f.macstyle
  {
    var g := TweakOs2Table(f, requested).value;
    if requested {
      var bits := WeightStyle(GuessWeight(f.weight, f.fontname)).value;
      SetsExactlyDetermines(f.os2Stylemap, g.os2Stylemap, bits.styleMap);
      SetsExactlyDetermines(f.macstyle, g.macstyle, bits.macStyle);
      OrKeepsBefore(f.os2Stylemap, bits.styleMap);
      OrKeepsBefore(f.macstyle, bits.macStyle);
    }
  }

  /** A successful tweak keeps the capability flag; the style words are
      unchanged without a request and are the old words OR the guessed
      entry's bits with one. */
  lemma TweakStyleWords(f: Font, requested: bool)
    requires TweakOs2Table(f, requested).Success?
    ensures TweakOs2Table(f, requested).value.hasOs2Stylemap == f.hasOs2Stylemap
    ensures !requested ==>
              && TweakOs2Table(f, requested).value.os2Stylemap == f.os2Stylemap
              && TweakOs2Table(f, requested).value.macstyle == f.macstyle
    ensures requested ==>
              var bits := WeightStyle(GuessWeight(f.weight, f.fontname));
              && bits.Some?
              && TweakOs2Table(f, requested).value.os2Stylemap == f.os2Stylemap | bits.value.styleMap
              && TweakOs2Table(f, requested).value.macstyle == f.macstyle | bits.value.macStyle
  {
    var g := TweakOs2Table(f, requested).value;
    assert g.(os2Stylemap := f.os2Stylemap, macstyle := f.macstyle) == f;
    if requested {
      var bits := WeightStyle(GuessWeight(f.weight, f.fontname)).value;
      SetsExactlyDetermines(f.os2Stylemap, g.os2Stylemap, bits.styleMap);
      SetsExactlyDetermines(f.macstyle, g.macstyle, bits.macStyle);
    }
  }

  /** Tweaking a tweaked font again changes nothing: the guess reads only
      fields the tweak keeps, and setting bits already set is a no-op. */
  lemma TweakIdempotent(f: Font, requested: bool)
    requires TweakOs2Table(f, requested).Success?
    ensures TweakOs2Table(TweakOs2Table(f, requested).value, requested)
         == TweakOs2Table(f, requested)
  {
    var g := TweakOs2Table(f, requested).value;
    if requested {
      var bits := WeightStyle(GuessWeight(f.weight, f.fontname)).value;
      assert g.weight == Get(g, Weight) == Get(f, Weight) == f.weight;
      assert g.fontname == Get(g, FontName) == Get(f, FontName) == f.fontname;
      OrSetsExactly(g.os2Stylemap, bits.styleMap);
      OrSetsExactly(g.macstyle, bits.macStyle);
      SetsExactlyDetermines(f.os2Stylemap, g.os2Stylemap, bits.styleMap);
      SetsExactlyDetermines(f.macstyle, g.macstyle, bits.macStyle);
    }
  }
}

=== FILE: output_name.dfy ===
/** The name of the generated TrueType file: the font name, then `-` and the
    version when the version is non-empty, then `.ttf`. */
module OutputName {
  import opened Strings

  /** The base name of the output file. */
  function Basename(fontname: string, version: string): (r: string)
    ensures StartsWith(r, fontname)
    ensures version == "" ==> r == fontname
    ensures version != "" ==> |r| == |fontname| + 1 + |version|
    ensures version != "" ==> r[|fontname|] == '-' && EndsWith(r, version)
  {
    if version != "" then fontname + "-" + version else fontname
  }

  /** The generated file's name. */
  function OutputFileName(fontname: string, version: string): (r: string)
    ensures StartsWith(r, fontname)
    ensures EndsWith(r, ".ttf")
    ensures r[..|r| - 4] == Basename(fontname, version)
  {
    Basename(fontname, version) + ".ttf"
  }

  /** Reads a base name back: the text before the first `-` is the font name
      and the text after it the version; with no `-`, the whole name is the
      font name and the version is empty. */
  function SplitBasename(b: string): (r: (string, string))
    ensures '-' !in r.0
    ensures r.1 == "" ==> b == r.0 || b == r.0 + "-"
    ensures r.1 != "" ==> b == r.0 + "-" + r.1
  {
    var k := IndexOf(b, '-');
    if k == |b| then (b, "") else (b[..k], b[k + 1..])
  }

  /** The base name loses nothing when the font name has no `-`: reading it
      back gives the font name and the version that made it. */
  lemma BasenameRoundTrip(fontname: string, version: string)
    requires '-' !in fontname
    ensures SplitBasename(Basename(fontname, version)) == (fontname, version)
  {
    var b := Basename(fontname, version);
    if version == "" {
      assert IndexOf(b, '-') == |b|;
    } else {
      var k := IndexOf(b, '-');
      assert b[|fontname|] == '-';
      assert k == |fontname|;
      assert b[..k] == fontname;
      assert b[k + 1..] == version;
    }
  }

  /** The file name gives the base name back once `.ttf` is stripped, so two
      fonts with `-`-free names get the same file exactly when they have the
      same name and version. */
  lemma OutputFileNameInjective(n1: string, v1: string, n2: string, v2: string)
    requires '-' !in n1 && '-' !in n2
    ensures OutputFileName(n1, v1) == OutputFileName(n2, v2) <==> n1 == n2 && v1 == v2
  {
    if OutputFileName(n1, v1) == OutputFileName(n2, v2) {
      assert Basename(n1, v1) == Basename(n2, v2);
      BasenameRoundTrip(n1, v1);
      BasenameRoundTrip(n2, v2);
    }
  }

  /** Reads a base name back at its last `-`: the text before it is the font
      name and the text after it the version; with no `-`, the whole name is
      the font name and the version is empty. */
  function SplitBasenameAtLast(b: string): (r: (string, string))
    ensures '-' !in r.1
    ensures r.1 == "" ==> b == r.0 || b == r.0 + "-"
    ensures r.1 != "" ==> b == r.0 + "-" + r.1
  {
    var k := LastIndexOf(b, '-');
    if k < 0 then (b, "") else (b[..k], b[k + 1..])
  }

  /** PostScript names such as "Terminus-Bold" keep their `-`: when the
      version has no `-` and is non-empty, or the font name has none, the
      last `-` of the base name is the separator and reading it back gives
      the font name and the version. */
  lemma BasenameRoundTripAtLast(fontname: string, version: string)
    requires '-' !in version
    requires version != "" || '-' !in fontname
    ensures SplitBasenameAtLast(Basename(fontname, version)) == (fontname, version)
  {
    var b := Basename(fontname, version);
    if version == "" {
      assert LastIndexOf(b, '-') == -1;
    } else {
      var k := LastIndexOf(b, '-');
      assert b[|fontname|] == '-';
      assert forall i :: |fontname| < i < |b| ==> b[i] == version[i - |fontname| - 1];
      assert k == |fontname|;
      assert b[..k] == fontname;
      assert b[k + 1..] == version;
    }
  }

  /** Without those conditions two fonts can share a file: a font named
      "a-b" with an empty version and a font "a" with version "b" both
      produce "a-b.ttf". */
  lemma OutputFileNameCollision()
    ensures OutputFileName("a-b", "") == OutputFileName("a", "b")
  {
  }
}

=== FILE: strings.dfy ===
/** The string helpers the metadata steps rely on: lower-casing and the
    suffix and prefix tests. Lower-casing is ASCII lower-casing. */
module Strings {

  /** 'A'..'Z' become 'a'..'z'; every other character is kept. */
  function LowerChar(c: char): char {
    if 'A' <= c <= 'Z' then (c as int + 32) as char else c
  }

  /** True when no character of `s` is an upper-case ASCII letter. */
  predicate IsLower(s: string) {
    forall i :: 0 <= i < |s| ==> !('A' <= s[i] <= 'Z')
  }

  /** Lower-cases `s` character by character. */
  function Lower(s: string): (r: string)
    ensures |r| == |s|
    ensures forall i :: 0 <= i < |s| ==> r[i] == LowerChar(s[i])
    ensures IsLower(r)
  {
    if s == [] then [] else [LowerChar(s[0])] + Lower(s[1..])
  }

  /** Lower-casing leaves a string that is already lower-case alone, and
      lower-casing twice is lower-casing once. */
  lemma {:induction false} LowerFixesLower(s: string)
    ensures IsLower(s) <==> Lower(s) == s
    ensures Lower(Lower(s)) == Lower(s)
  {
    if IsLower(s) {
      assert forall i :: 0 <= i < |s| ==> Lower(s)[i] == s[i];
    } else {
      var i :| 0 <= i < |s| && 'A' <= s[i] <= 'Z';
      assert Lower(s)[i] != s[i];
    }
    var t := Lower(s);
    assert forall i :: 0 <= i < |t| ==> Lower(t)[i] == t[i];
  }

  /** Python's `s.endswith(suffix)`. */
  predicate EndsWith(s: string, suffix: string) {
    |suffix| <= |s| && s[|s| - |suffix|..] == suffix
  }

  /** Python's `s.startswith(prefix)`. */
  predicate StartsWith(s: string, prefix: string) {
    |prefix| <= |s| && s[..|prefix|] == prefix
  }

  /** The first position of `c` in `s`, or `|s|` when `c` does not occur. */
  function IndexOf(s: string, c: char): (r: nat)
    ensures r <= |s|
    ensures forall i :: 0 <= i < r ==> s[i] != c
    ensures r < |s| ==> s[r] == c
    ensures r == |s| <==> c !in s
  {
    if s == [] then 0
    else if s[0] == c then 0
    else 1 + IndexOf(s[1..], c)
  }

  /** The last position of `c` in `s`, or -1 when `c` does not occur. */
  function LastIndexOf(s: string, c: char): (r: int)
    ensures -1 <= r < |s|
    ensures forall i :: r < i < |s| ==> s[i] != c
    ensures 0 <= r ==> s[r] == c
    ensures r == -1 <==> c !in s
  {
    if s == [] then -1
    else if s[|s| - 1] == c then |s| - 1
    else LastIndexOf(s[..|s| - 1], c)
  }
}

=== FILE: style_words.dfy ===
/** Facts about setting flag bits in a 16-bit style word with `|=`. */
module StyleWords {

  /** `after` has every bit of `mask` set and agrees with `before` on every
      other bit. */
  predicate SetsExactly(before: bv16, after: bv16, mask: bv16) {
    && after & mask == mask
    && after & !mask == before & !mask
  }

  lemma OrSetsMask(before: bv16, mask: bv16)
    ensures (before | mask) & mask == mask
  {
  }

  lemma OrKeepsOthers(before: bv16, mask: bv16)
    ensures (before | mask) & !mask == before & !mask
  {
  }

  lemma OrKeepsBefore(before: bv16, mask: bv16)
    ensures (before | mask) & before == before
  {
  }

  /** OR-ing a mask in sets exactly that mask and keeps every bit already set. */
  lemma OrSetsExactly(before: bv16, mask: bv16)
    ensures SetsExactly(before, before | mask, mask)
    ensures (before | mask) & before == before
  {
    OrSetsMask(before, mask);
    OrKeepsOthers(before, mask);
    OrKeepsBefore(before, mask);
  }

  /** Setting exactly a mask leaves one possible result, the OR: the two
      descriptions of the update agree. */
  lemma SetsExactlyDetermines(before: bv16, after: bv16, mask: bv16)
    requires SetsExactly(before, after, mask)
    ensures after == before | mask
  {
  }
}

=== FILE: wrappers.dfy ===
/** Option and Result, used for the command line's optional values and for
    the script's exit paths. */
module Wrappers {

  /** A value that may be absent, as an argparse option that was not given. */
  datatype Option<+T> = None | Some(value: T) {

    /** The wrapped value, or `default` when there is none. */
    function GetOr(default: T): T {
      match this
      case Some(v) => v
      case None => default
    }
  }

  /** The outcome of a step that can end the script with an error message. */
  datatype Result<+T, +E> = Success(value: T) | Failure(error: E)
}
